=== FILE: README.md ===
# Integrated Medical AI backend: request routing and payload handling

The backend receives a chat request (message text, conversation history, an
optional inline image and an agent type). Before any generative model is
called it decides a few things:

- which of its three agents handles the request (the conversation agent, the
  prescription parser or the multi-agent system);
- inside the multi-agent system, which sub-agent handles the query (image
  analysis, web search or retrieval);
- how an uploaded image's `data:<mime>;base64,` prefix is removed;
- how the JSON body is cut out of a model reply wrapped in a markdown code fence;
- how the text-only conversation prompt is built from the last ten history turns.

This project models those rules as pure Dafny functions and proves what they
guarantee. Model calls appear only as the request that would be sent (`Agents.Call`).
Their answers are not modelled.

Modules, one per concern of `backend/app.py`:

- `Wrappers`: `Option`.
- `Text`: the Python `str` operations the code calls: `strip` (via `isspace`),
  ASCII `lower`, `in`, and `split` with a non-empty separator. `in` and `split`
  are computed through a leftmost search (`find`). `upper` and `join` are not
  called by `backend/app.py`. They are proof helpers: `upper` states case
  insensitivity, and `join` states the `split` round trip.
- `Payload`: data-URL stripping and code-fence extraction.
- `Prompt`: history turns, the trailing window and the chat prompt.
- `Routing`: the `auto` detection, the dispatch of `chat` and the multi-agent route.
- `Agents`: each agent's step up to the model call, and the `/api/chat` handler.

Modelling choices:

- `agent_type` is `Option<string>`. The request model declares it as
  `Optional[str] = "auto"` (backend/app.py:60). So an omitted field arrives as
  `Some("auto")`, and only an explicit JSON `null` is `None`. A `null` is not
  `"auto"` and is none of the three agent names, so it gets "Invalid agent type".
- "An image is present" is Python truthiness: `Some(s)` with `s` non-empty.
- `lower()` is ASCII lower-casing. A keyword test `word in text` is substring containment.
- `strip()` removes exactly the characters for which Python's `str.isspace()` holds.
- A missing `GOOGLE_API_KEY` is the boolean `apiKey == false`.
- `chat` rewrites `auto` and then branches on `agent_type` (backend/app.py:358-386).
  The model follows those branches.

## Model

| member | source | states |
|---|---|---|
| Text.Strip | backend/app.py:190 | the stripped reply neither starts nor ends with whitespace |
| Text.StripUnique | backend/app.py:190 | any cut of a string into whitespace, a middle with non-space ends, and whitespace is the one `strip()` makes |
| Text.StripIdempotent | backend/app.py:190 | stripping twice is stripping once |
| Text.Lower | backend/app.py:359 | `lower()` keeps the length and lower-cases each character in place |
| Text.LowerForgetsCase | backend/app.py:359 | lower-casing after upper-casing or after lower-casing gives the same text as lower-casing alone |
| Text.IndexFrom | backend/app.py:191 | the search returns the leftmost occurrence at or after the start index, or none exists there |
| Text.Contains | backend/app.py:90 | `p in s` holds exactly when `p` occurs at some index of `s` |
| Text.ContainsAny | backend/app.py:235 | `any(w in s for w in words)` holds exactly when some listed word occurs somewhere in `s` |
| Text.Split | backend/app.py:91 | `split(sep)` gives at least one piece, none holds `sep`, and there are two or more exactly when `sep` occurs |
| Text.JoinSplit | backend/app.py:91 | joining the pieces of `split(sep)` with `sep` gives back the original string |
| Payload.StripDataUrl | backend/app.py:90-93 | the data sent to the decoder is no longer than the upload and holds no comma |
| Payload.DataUrlWithoutComma | backend/app.py:92-93 | an upload without a comma is passed through unchanged |
| Payload.StripDataUrlMeaning | backend/app.py:90-93 | the stripped data is the one string that is the whole upload when it has no comma, and otherwise the comma-free field right after the first comma |
| Payload.DataUrlSegment | backend/app.py:90-91 | with a first comma at `i`, the data is exactly the text between that comma and the next comma or the end |
| Payload.StripDataUrlIdempotent | backend/app.py:90-93 | stripping the prefix twice is stripping it once |
| Payload.ExtractFenced | backend/app.py:190-194 | the text handed to `json.loads` never holds a ```` ``` ```` fence |
| Payload.UnfencedReplyIsStripped | backend/app.py:190-194 | a reply without any fence is only stripped |
| Payload.BareFenceBody | backend/app.py:193-194 | with only bare fences, the body is exactly the text between the first fence and the next fence or the end |
| Payload.JsonFenceBody | backend/app.py:191-192 | with `f` the leftmost fence after the first ```` ```json ```` marker (or the end), the body is the text up to `f`, unless a second marker starts one or two characters after `f` |
| Payload.JsonFenceBounds | backend/app.py:191-192 | in general the body is a prefix of the text after the first marker, followed there by a fence or by the end |
| Payload.JsonBodyUpToSecondMarker | backend/app.py:192 | when the text between two ```` ```json ```` markers holds no fence, that whole text is the body |
| Payload.BacktickRunBeforeSecondJsonFence | backend/app.py:192 | a backtick run just before a second marker stays in the body, although a fence starts inside that run |
| Prompt.Window | backend/app.py:112 | `history[-10:]` is the last `min(10, n)` turns of the history in their original order |
| Prompt.WindowSlides | backend/app.py:112 | a new turn enters the window at the end, and once the window is full the oldest turn in it drops out |
| Prompt.AppendHistory | backend/app.py:112-113 | the history loop appends exactly the lines of the windowed turns, oldest first |
| Prompt.BuildChatPrompt | backend/app.py:110-114 | the assembled prompt equals the preamble, then the window's lines, then `user: {message}\nassistant:` |
| Prompt.OlderTurnsIgnored | backend/app.py:112 | turns older than the last ten do not change the prompt |
| Prompt.ChatPromptLayout | backend/app.py:110-114 | the prompt is the preamble, the lines of the last `min(10, n)` turns, then the closing user turn |
| Prompt.LinesIgnoreMetadata | backend/app.py:113 | only role and content of a turn reach the prompt; timestamps and agent labels do not |
| Routing.KeywordHit | backend/app.py:359-365 | a keyword test holds exactly when some listed word occurs in the lower-cased message |
| Routing.AutoDetect | backend/app.py:358-368 | `auto` becomes one of prescription, multi-agent or medical-chat, never `auto`; it becomes prescription exactly with an image and a prescription keyword, and multi-agent exactly when that fails and an advanced keyword appears |
| Routing.Dispatch | backend/app.py:371-386 | each agent name reaches its agent, prescription only with an image; a missing image gives "Image required for prescription parsing"; any other value gives "Invalid agent type" |
| Routing.Resolve | backend/app.py:356-386 | `auto` never ends in a 400; any other type is dispatched as given; the prescription parser is reached only with an image |
| Routing.AutoResolution | backend/app.py:358-368 | under `auto`, each of the three agents is reached exactly under its keyword condition |
| Routing.PrescriptionTakesPrecedence | backend/app.py:362-366 | a prescription keyword with an image wins over every advanced keyword |
| Routing.ExplicitTypeNotRewritten | backend/app.py:358 | a non-`auto` type is routed alike whatever the message says |
| Routing.UnknownTypeRejected | backend/app.py:382-386 | a type outside the four known values, a `null` included, gives "Invalid agent type" |
| Routing.ImageRequiredOnlyWhenExplicit | backend/app.py:373-378 | an explicit prescription request gets the image-required 400 exactly when no image is present; `auto` never does |
| Routing.ResolveIgnoresCase | backend/app.py:356-386 | two messages that are equal after lower-casing are routed alike, under every agent type and image |
| Routing.ResolveUnderCaseMapping | backend/app.py:359 | upper-casing or lower-casing the message does not change where the request goes |
| Routing.MultiRoute | backend/app.py:232-243 | image analysis exactly with an image or an imaging keyword; else web search exactly with a search keyword; else retrieval |
| Routing.MultiRouteIgnoresCase | backend/app.py:232-243 | two messages that are equal after lower-casing get the same sub-agent |
| Routing.AdvancedIsImagingOrSearch | backend/app.py:365 | every advanced keyword of `auto` is an imaging or a search keyword of the multi-agent system |
| Routing.AutoMultiAgentNeverRag | backend/app.py:365-366 | a request that `auto` sends to the multi-agent system never ends in retrieval |
| Agents.MedicalChatStep | backend/app.py:78-116 | no key gives a failed "API Key missing" answer and nothing else does; a vision call happens exactly with a key and an image, and carries the upload's data field and the bare message; a text call's prompt is the preamble, the lines of the last `min(10, n)` turns, then the closing user turn |
| Agents.PrescriptionStep | backend/app.py:142-186 | no key gives a failed "API Key missing" answer and nothing else does; any call is a parse call on the upload's data field |
| Agents.ImageAnalysisStep | backend/app.py:290-320 | a direct answer happens exactly without an image, and it is a failure asking for an image; any call is an analysis call on the upload's data field with the query unchanged |
| Agents.MultiAgentStep | backend/app.py:222-243 | no model call without a key; every call takes the message as its query; analysis exactly with a key and an image; the ask-for-an-image answer exactly with a key, no image and an imaging keyword; web search exactly when no image or imaging keyword and a search keyword; retrieval exactly when none of these |
| Agents.HandleChat | backend/app.py:353-388 | the response is a 400 exactly when routing rejects the request, and it carries routing's error text; an accepted request runs the agent routing chose, whose only possible calls are that agent's; with a key, an accepted request calls a model unless the multi-agent system asks for a missing image; any call with image data carries the stripped data of a present image |
| Agents.ImagingQueryWithoutImage | backend/app.py:293-297 | an imaging-keyword query without an image reaches image analysis and gets the failed "Please provide an image" reply |
| Agents.AutoImagingTextRefused | backend/app.py:365-366 | under `auto`, a text-only message naming "analyze image", "x-ray" or "scan" ends in that failed reply |
| Agents.HistoryOnlyInTextChat | backend/app.py:105-116 | the history changes the outcome only through the text-only conversation prompt |
| Agents.KeyMissingNeverCallsModel | backend/app.py:80-85 | without an API key no model is called: routing rejects the request, or the agent answers "API Key missing" |
| Agents.ImageDataHasNoComma | backend/app.py:300-303 | image data handed to a model never contains a comma |

## Left out

- Model calls: `genai.configure`, `GenerativeModel` and `generate_content`, and the text they return (backend/app.py:99-104, 116, 185-186, 256-259, 274-277, 319-320). These go to a hosted service. A call is represented by its inputs only.
- Prompt templates: the fixed wording of the vision, prescription, retrieval, web-search and image-analysis prompts is not reproduced. Only the text-only chat prompt (backend/app.py:110-114) is modelled word for word.
- Decoders: `base64.b64decode`, `PIL.Image.open` and `json.loads` are library code. When they fail, the agent's `except` branch turns the failure into an error reply. Neither the decoders nor those error replies are modelled (backend/app.py:125-131, 205-211, 245-251).
- The web-search fallback to retrieval (backend/app.py:285-288) is not modelled. It only reacts to a failure of the hosted model.
- The re-raising in `_handle_rag` and `_handle_image_analysis` is not modelled (backend/app.py:267-269, 329-331). In image analysis it catches hosted-model failures, and also failures of `base64.b64decode` and `PIL.Image.open` on the stripped data (backend/app.py:306-307). `process` turns every re-raised exception into the multi-agent error reply (backend/app.py:245-251), which is not modelled either. The model stops at the call: `Agents.ImageAnalysisStep` says which data would be decoded, not whether decoding succeeds.
- The HTTP 500 branch of `chat` (backend/app.py:390-399) is not modelled. The agents catch their own exceptions, so only framework failures reach it.
- Agent labels, `requires_validation` and `source` fields of successful replies are not modelled. They come with the model's text.
- Framework plumbing is not modelled: FastAPI app, CORS, directory creation, logging, environment loading, `uvicorn.run` and status codes other than the 400 outcomes.
- The `/`, `/api/health`, `/api/prescription/parse` and `/api/voice/command` routes are outside the modelled chat path. The voice route cuts its reply with the same fence rule (backend/app.py:442-446), so `Payload.ExtractFenced` describes that rule too.
- Python's `str.lower()` also maps non-ASCII letters. The model lower-cases ASCII letters only.
- The browser client is not part of this model: its conversation log, draft input, voice capture and request lifecycle are not in `backend/app.py`.

=== FILE: agents.dfy ===
/** What each agent does with a request up to the point where it calls the
    hosted model, and the `/api/chat` handler that ties routing to the agents.
    A model call is represented by the request it would send; its answer is
    not part of the model. */
module Agents {
  import opened Wrappers
  import opened Text
  import opened Payload
  import opened Prompt
  import opened Routing

  /** The JSON body of `/api/chat`. */
  datatype ChatRequest = ChatRequest(
    message: string,
    history: seq<Turn>,
    image: Option<string>,
    agentType: Option<string>)

  /** A result dictionary an agent returns without calling the model. */
  datatype Reply = Reply(success: bool, error: Option<string>, response: string)

  /** A call to the hosted model, with the inputs that reach it. */
  datatype Call =
    | ChatText(prompt: string)                      // conversation agent, no image
    | ChatVision(imageData: string, message: string) // conversation agent, with image
    | ParsePrescription(imageData: string)
    | AnalyzeImage(imageData: string, query: string)
    | SearchWeb(query: string)
    | QueryKnowledgeBase(query: string)

  /** The next thing an agent does: answer directly, or call the model. */
  datatype Step = Answer(reply: Reply) | Generate(call: Call)

  /** The response of `/api/chat`: an HTTP 400 with an error text, or the
      step of the agent the request was routed to. */
  datatype Response = BadRequest(error: string) | Handled(step: Step)

  const KeyMissing: string := "API Key missing"
  const ChatKeyMissingReply: Reply :=
    Reply(false, Some(KeyMissing), "API Key is missing. Please configure GOOGLE_API_KEY.")
  const KeyMissingReply: Reply := Reply(false, Some(KeyMissing), "API Key is missing.")
  const NeedImageReply: Reply := Reply(false, None, "Please provide an image for analysis.")

  predicate CarriesImage(c: Call) {
    c.ChatVision? || c.ParsePrescription? || c.AnalyzeImage?
  }

  /** `MedicalConversationAgent.process`: without a key it answers with the
      key error; with an image it sends the upload's data field and the bare
      message to the vision model; otherwise a text prompt built from the
      last ten turns. */
  function MedicalChatStep(apiKey: bool, message: string, history: seq<Turn>, image: Option<string>): (s: Step)
    ensures s.Answer? <==> !apiKey
    ensures s.Answer? ==> !s.reply.success && s.reply.error == Some(KeyMissing)
    ensures s.Generate? ==> s.call.ChatText? || s.call.ChatVision?
    ensures s.Generate? && s.call.ChatVision? <==> apiKey && HasImage(image)
    ensures s.Generate? && s.call.ChatVision? ==>
              HasImage(image) && UploadData(image.value, s.call.imageData) && s.call.message == message
    ensures s.Generate? && s.call.ChatText? ==>
              var n := Min(HistoryWindow, |history|);
              s.call.prompt == Preamble + Lines(history[|history| - n..]) + Closing(message)
  {
    if !apiKey then Answer(ChatKeyMissingReply)
    else if HasImage(image) then
      StripDataUrlMeaning(image.value, StripDataUrl(image.value));
      Generate(ChatVision(StripDataUrl(image.value), message))
    else
      ChatPromptLayout(history, message);
      Generate(ChatText(ChatPrompt(history, message)))
  }

  /** `PrescriptionParserAgent.process`: the key error, or the upload's data
      field sent to the parsing prompt. */
  function PrescriptionStep(apiKey: bool, image: string): (s: Step)
    ensures s.Answer? <==> !apiKey
    ensures s.Answer? ==> !s.reply.success && s.reply.error == Some(KeyMissing)
    ensures s.Generate? ==> s.call.ParsePrescription? && UploadData(image, s.call.imageData)
  {
    if !apiKey then Answer(KeyMissingReply)
    else
      StripDataUrlMeaning(image, StripDataUrl(image));
      Generate(ParsePrescription(StripDataUrl(image)))
  }

  /** `MultiAgentSystem._handle_image_analysis`: a failed reply asking for an
      image when there is none, else the upload's data field and the query
      sent to the imaging prompt. */
  function ImageAnalysisStep(query: string, image: Option<string>): (s: Step)
    ensures s.Answer? <==> !HasImage(image)
    ensures s.Answer? ==> !s.reply.success && s.reply.response == NeedImageReply.response
    ensures s.Generate? ==>
              && s.call.AnalyzeImage? && s.call.query == query
              && HasImage(image) && UploadData(image.value, s.call.imageData)
  {
    if !HasImage(image) then Answer(NeedImageReply)
    else
      StripDataUrlMeaning(image.value, StripDataUrl(image.value));
      Generate(AnalyzeImage(StripDataUrl(image.value), query))
  }

  /** `MultiAgentSystem.process`: the key error, or the sub-agent the
      message's keywords and the image select, which gets the message as its
      query. The history is accepted and not used. */
  function MultiAgentStep(apiKey: bool, message: string, history: seq<Turn>, image: Option<string>): (s: Step)
    ensures !apiKey ==> s.Answer? && !s.reply.success && s.reply.error == Some(KeyMissing)
    ensures s.Generate? ==> apiKey
    ensures s.Generate? ==>
              (s.call.AnalyzeImage? || s.call.SearchWeb? || s.call.QueryKnowledgeBase?) && s.call.query == message
    ensures s.Generate? && s.call.AnalyzeImage? <==> apiKey && HasImage(image)
    ensures s.Generate? && s.call.AnalyzeImage? ==> HasImage(image) && UploadData(image.value, s.call.imageData)
    ensures s == Answer(NeedImageReply) <==> apiKey && !HasImage(image) && Mentions(message, ImagingKeywords)
    ensures s.Generate? && s.call.SearchWeb? <==>
              apiKey && !HasImage(image) && !Mentions(message, ImagingKeywords) && Mentions(message, SearchKeywords)
    ensures s.Generate? && s.call.QueryKnowledgeBase? <==>
              apiKey && !HasImage(image) && !Mentions(message, ImagingKeywords) && !Mentions(message, SearchKeywords)
  {
    if !apiKey then Answer(KeyMissingReply)
    else match MultiRoute(message, image)
      case ImageAnalysis => ImageAnalysisStep(message, image)
      case WebSearch => Generate(SearchWeb(message))
      case Rag => Generate(QueryKnowledgeBase(message))
  }

  /** `chat`: resolve and dispatch, then run the chosen agent. */
  function HandleChat(req: ChatRequest, apiKey: bool): (r: Response)
    ensures r.BadRequest? <==> Resolve(req.agentType, req.message, req.image).Err400?
    ensures r.BadRequest? ==> r.error == Resolve(req.agentType, req.message, req.image).error
    ensures Resolve(req.agentType, req.message, req.image) == MedicalChat ==>
              r.Handled? && (r.step.Answer? || r.step.call.ChatText? || r.step.call.ChatVision?)
    ensures Resolve(req.agentType, req.message, req.image) == Prescription ==>
              r.Handled? && (r.step.Answer? || r.step.call.ParsePrescription?)
    ensures Resolve(req.agentType, req.message, req.image) == MultiAgent ==>
              r.Handled? && (r.step.Answer? || r.step.call.AnalyzeImage? || r.step.call.SearchWeb?
                               || r.step.call.QueryKnowledgeBase?)
    ensures r.Handled? && r.step.Answer? ==>
              !apiKey || (Resolve(req.agentType, req.message, req.image) == MultiAgent && r.step == Answer(NeedImageReply))
    ensures r.Handled? && r.step.Generate? && CarriesImage(r.step.call) ==>
              HasImage(req.image) && r.step.call.imageData == StripDataUrl(req.image.value)
  {
    match Resolve(req.agentType, req.message, req.image)
    case Err400(e) => BadRequest(e)
    case MedicalChat => Handled(MedicalChatStep(apiKey, req.message, req.history, req.image))
    case Prescription => Handled(PrescriptionStep(apiKey, req.image.value))
    case MultiAgent => Handled(MultiAgentStep(apiKey, req.message, req.history, req.image))
  }

  /** A query naming an imaging word but carrying no image goes to image
      analysis and is answered with success=false and a request for an
      image. */
  lemma ImagingQueryWithoutImage(message: string, history: seq<Turn>, image: Option<string>)
    requires !HasImage(image)
    requires Mentions(message, ImagingKeywords)
    ensures MultiRoute(message, image) == ImageAnalysis
    ensures MultiAgentStep(true, message, history, image) == Answer(NeedImageReply)
  {
  }

  /** End to end: under `auto`, a text-only message that mentions "analyze
      image", "x-ray" or "scan" reaches the multi-agent system and comes back
      as the failed "Please provide an image for analysis." reply. */
  lemma AutoImagingTextRefused(message: string, history: seq<Turn>, image: Option<string>)
    requires !HasImage(image)
    requires Mentions(message, AdvancedKeywords) && Mentions(message, ImagingKeywords)
    ensures HandleChat(ChatRequest(message, history, image, Some(Auto)), true) == Handled(Answer(NeedImageReply))
  {
  }

  /** The history reaches a model only through the text-only conversation
      prompt: changing it changes nothing else. */
  lemma HistoryOnlyInTextChat(req: ChatRequest, other: seq<Turn>, apiKey: bool)
    ensures var r := HandleChat(req, apiKey);
      r == HandleChat(req.(history := other), apiKey)
      || (r.Handled? && r.step.Generate? && r.step.call.ChatText?)
  {
  }

  /** Without an API key no model is called: the request is either rejected
      by routing or answered with the "API Key missing" error. */
  lemma KeyMissingNeverCallsModel(req: ChatRequest)
    ensures var r := HandleChat(req, false);
      r.BadRequest? || (r.step.Answer? && !r.step.reply.success && r.step.reply.error == Some(KeyMissing))
  {
  }

  /** Image bytes handed to a model never contain a comma. */
  lemma ImageDataHasNoComma(req: ChatRequest, apiKey: bool)
    ensures var r := HandleChat(req, apiKey);
      r.Handled? && r.step.Generate? && CarriesImage(r.step.call) ==> !Contains(r.step.call.imageData, Comma)
  {
  }
}

=== FILE: payload.dfy ===
/** Text surgery the agents apply to what they receive: removing the
    `data:<mime>;base64,` prefix from an uploaded image, and pulling the JSON
    body out of a markdown code fence in a model's reply. */
module Payload {
  import opened Wrappers
  import opened Text

  const Comma: string := ","
  const Fence: string := "```"
  const JsonFence: string := "```json"

  // ---------------------------------------------------------------------------
  // Data-URL prefix
  // ---------------------------------------------------------------------------

  /** `image.split(",")[1] if "," in image else image`, as every agent does
      before base64-decoding an upload. */
  function StripDataUrl(image: string): (data: string)
    ensures |data| <= |image|
    ensures !Contains(data, Comma)
  {
    if Contains(image, Comma) then Split(image, Comma)[1] else image
  }

  /** Without a comma the upload is passed through untouched. */
  lemma DataUrlWithoutComma(image: string)
    requires forall k :: 0 <= k < |image| ==> image[k] != ','
    ensures StripDataUrl(image) == image
  {
    forall k ensures !OccursAt(image, Comma, k) {
      OccursAtChar(image, ',', k);
    }
  }

  /** `i` is the position of the first comma of `image`. */
  predicate FirstCommaAt(image: string, i: int) {
    0 <= i < |image| && image[i] == ',' && forall k :: 0 <= k < i ==> image[k] != ','
  }

  /** `data` is the comma-free text that starts right after index `i` and
      runs to the next comma or the end of `image`. */
  predicate SegmentAfter(image: string, i: nat, data: string) {
    && i + 1 + |data| <= |image|
    && image[i + 1..i + 1 + |data|] == data
    && (i + 1 + |data| == |image| || image[i + 1 + |data|] == ',')
    && forall k :: 0 <= k < |data| ==> data[k] != ','
  }

  /** With a comma at `i` (the first one), the result is the text strictly
      between that comma and the next one, or the end of the string. */
  lemma DataUrlSegment(image: string, i: nat)
    requires FirstCommaAt(image, i)
    ensures SegmentAfter(image, i, StripDataUrl(image))
  {
    FirstComma(image, i);
    var tail := image[i + 1..];
    SplitSecond(image, Comma, i);
    FirstPieceBounds(tail, Comma);
    var data := StripDataUrl(image);
    assert data == Split(tail, Comma)[0];
    assert tail[..|data|] == data;
    if |data| < |tail| {
      OccursAtChar(tail, ',', |data|);
    }
    NoCommaChar(data);
  }

  /** Helper: the first comma character is the leftmost `","`. */
  lemma FirstComma(image: string, i: nat)
    requires FirstCommaAt(image, i)
    ensures IndexOf(image, Comma) == Some(i)
  {
    forall k | 0 <= k < i ensures !OccursAt(image, Comma, k) {
      OccursAtChar(image, ',', k);
    }
    OccursAtChar(image, ',', i);
    LeftmostIsIndexOf(image, Comma, i);
  }

  /** Helper: a string without `","` has no comma character. */
  lemma NoCommaChar(s: string)
    requires !Contains(s, Comma)
    ensures forall k :: 0 <= k < |s| ==> s[k] != ','
  {
    forall k | 0 <= k < |s| ensures s[k] != ',' {
      OccursAtChar(s, ',', k);
    }
  }

  /** Reference meaning of the data-URL strip: an upload without a comma is
      kept whole; otherwise what counts is the field after the first comma. */
  ghost predicate UploadData(image: string, data: string) {
    if exists i :: FirstCommaAt(image, i) then exists i :: FirstCommaAt(image, i) && SegmentAfter(image, i, data)
    else data == image
  }

  /** `StripDataUrl` computes exactly the reference field, and no other
      string is that field. */
  lemma StripDataUrlMeaning(image: string, data: string)
    ensures UploadData(image, data) <==> data == StripDataUrl(image)
  {
    if Contains(image, Comma) {
      var i := CommaFieldIsStripped(image);
      if UploadData(image, data) {
        var j :| FirstCommaAt(image, j) && SegmentAfter(image, j, data);
        SegmentUnique(image, i, data, StripDataUrl(image));
      }
    } else {
      NoCommaChar(image);
      DataUrlWithoutComma(image);
    }
  }

  /** Helper: with a comma, the stripped upload is the field after the
      first one. */
  lemma CommaFieldIsStripped(image: string) returns (i: nat)
    requires Contains(image, Comma)
    ensures FirstCommaAt(image, i)
    ensures SegmentAfter(image, i, StripDataUrl(image))
  {
    i := IndexOf(image, Comma).value;
    OccursAtChar(image, ',', i);
    forall k | 0 <= k < i ensures image[k] != ',' {
      OccursAtChar(image, ',', k);
    }
    DataUrlSegment(image, i);
  }

  /** Helper: the field after a comma is determined by the comma. */
  lemma SegmentUnique(image: string, i: nat, d1: string, d2: string)
    requires SegmentAfter(image, i, d1) && SegmentAfter(image, i, d2)
    ensures d1 == d2
  {
    var field := image[i + 1..];
    assert forall j :: 0 <= j < |d1| ==> field[j] != ',';
    assert forall j :: 0 <= j < |d2| ==> field[j] != ',';
    assert |d1| == |d2|;
  }

  /** Stripping an already stripped upload changes nothing. */
  lemma StripDataUrlIdempotent(image: string)
    ensures StripDataUrl(StripDataUrl(image)) == StripDataUrl(image)
  {
  }

  // ---------------------------------------------------------------------------
  // Code-fence extraction
  // ---------------------------------------------------------------------------

  /** The text handed to `json.loads` after a model reply: strip it, then
      take `split("```json")[1].split("```")[0]` when it holds `JsonFence`,
      else `split("```")[1].split("```")[0]` when it holds a bare fence,
      else the stripped text itself. */
  function ExtractFenced(reply: string): (body: string)
    ensures !Contains(body, Fence)
  {
    var t := Strip(reply);
    if Contains(t, JsonFence) then Split(Split(t, JsonFence)[1], Fence)[0]
    else if Contains(t, Fence) then Split(Split(t, Fence)[1], Fence)[0]
    else t
  }

  lemma JsonFenceStartsWithFence()
    ensures JsonFence == Fence + "json"
  {
  }

  /** Helper: the `JsonFence` case of `ExtractFenced`, with the marker
      first at `i`. */
  lemma JsonCase(reply: string, t: string, i: nat)
    requires t == Strip(reply)
    requires IndexOf(t, JsonFence) == Some(i)
    ensures ExtractFenced(reply) == Split(Split(t[i + |JsonFence|..], JsonFence)[0], Fence)[0]
  {
    SplitSecond(t, JsonFence, i);
  }

  /** Helper: the bare-fence case of `ExtractFenced`, with the fence first
      at `i`. */
  lemma BareCase(reply: string, t: string, i: nat)
    requires t == Strip(reply)
    requires !Contains(t, JsonFence)
    requires IndexOf(t, Fence) == Some(i)
    ensures ExtractFenced(reply) == Split(Split(t[i + |Fence|..], Fence)[0], Fence)[0]
  {
    SplitSecond(t, Fence, i);
  }

  /** A reply without any fence is only stripped. */
  lemma UnfencedReplyIsStripped(reply: string)
    requires !Contains(Strip(reply), Fence)
    ensures ExtractFenced(reply) == Strip(reply)
  {
    var t := Strip(reply);
    JsonFenceStartsWithFence();
    if Contains(t, JsonFence) {
      ContainsPrefixOfPattern(t, Fence, "json");
    }
  }

  /** A bare fence: the body is exactly the text between the first `Fence`
      (at `i`) and the next one (at `j`), or the end of the stripped reply. */
  lemma BareFenceBody(reply: string, t: string, i: nat, j: nat)
    requires t == Strip(reply)
    requires !Contains(t, JsonFence)
    requires OccursAt(t, Fence, i)
    requires forall k :: 0 <= k < i ==> !OccursAt(t, Fence, k)
    requires i + |Fence| <= j <= |t|
    requires j == |t| || OccursAt(t, Fence, j)
    requires forall k :: i + |Fence| <= k < j ==> !OccursAt(t, Fence, k)
    ensures ExtractFenced(reply) == t[i + |Fence|..j]
  {
    LeftmostIsIndexOf(t, Fence, i);
    var tail := t[i + |Fence|..];
    BareCase(reply, t, i);
    FirstPieceUpTo(tail, t, i + |Fence|, j);
    SplitWithoutSep(t[i + |Fence|..j], Fence);
  }

  /** The `JsonFence` body in general: with `rest` the text after the
      first marker and `f` the leftmost `Fence` in `rest` (or `|rest|`),
      the body is `rest[..f]` unless a second marker starts one or two
      characters after `f`, where the split on `JsonFence` would cut
      through that run of backticks first. */
  lemma JsonFenceBody(reply: string, t: string, i: nat, rest: string, f: nat)
    requires t == Strip(reply)
    requires OccursAt(t, JsonFence, i)
    requires forall k :: 0 <= k < i ==> !OccursAt(t, JsonFence, k)
    requires rest == t[i + |JsonFence|..]
    requires f <= |rest|
    requires f == |rest| || OccursAt(rest, Fence, f)
    requires forall k :: 0 <= k < f ==> !OccursAt(rest, Fence, k)
    requires !OccursAt(rest, JsonFence, f + 1) && !OccursAt(rest, JsonFence, f + 2)
    ensures ExtractFenced(reply) == rest[..f]
  {
    LeftmostIsIndexOf(t, JsonFence, i);
    JsonCase(reply, t, i);
    MarkerThenFence(rest, f);
  }

  /** Helper: `JsonFenceBody` on the text after the first marker. */
  lemma MarkerThenFence(rest: string, f: nat)
    requires f <= |rest|
    requires f == |rest| || OccursAt(rest, Fence, f)
    requires forall k :: 0 <= k < f ==> !OccursAt(rest, Fence, k)
    requires !OccursAt(rest, JsonFence, f + 1) && !OccursAt(rest, JsonFence, f + 2)
    ensures Split(Split(rest, JsonFence)[0], Fence)[0] == rest[..f]
  {
    var n := MarkerCutAfter(rest, f);
    MarkerThenFenceCut(rest, n, f);
  }

  /** Helper: `MarkerThenFence` once the marker cut `n` is known. */
  lemma MarkerThenFenceCut(rest: string, n: nat, f: nat)
    requires f <= n <= |rest|
    requires f == |rest| || OccursAt(rest, Fence, f)
    requires forall k :: 0 <= k < f ==> !OccursAt(rest, Fence, k)
    requires f == n || f + |Fence| <= n
    requires Split(rest, JsonFence)[0] == rest[..n]
    ensures Split(Split(rest, JsonFence)[0], Fence)[0] == rest[..f]
  {
    FenceCut(rest, n, f);
  }

  /** Helper: where the split on `JsonFence` cuts (at the leftmost
      marker, or at the end), relative to the leftmost fence `f`. */
  lemma MarkerCutAfter(rest: string, f: nat) returns (n: nat)
    requires f <= |rest|
    requires f == |rest| || OccursAt(rest, Fence, f)
    requires forall k :: 0 <= k < f ==> !OccursAt(rest, Fence, k)
    requires !OccursAt(rest, JsonFence, f + 1) && !OccursAt(rest, JsonFence, f + 2)
    ensures f <= n <= |rest|
    ensures f == n || f + |Fence| <= n
    ensures Split(rest, JsonFence)[0] == rest[..n]
  {
    SplitFirst(rest, JsonFence);
    if IndexOf(rest, JsonFence).Some? {
      n := IndexOf(rest, JsonFence).value;
      CutOutsideFence(rest, n, f);
    } else {
      n := |rest|;
      assert rest[..n] == rest;
    }
  }

  /** Helper: a marker at `n` does not start inside the leftmost fence `f`
      unless it starts one or two characters after it. */
  lemma CutOutsideFence(rest: string, n: nat, f: nat)
    requires f <= |rest|
    requires forall k :: 0 <= k < f ==> !OccursAt(rest, Fence, k)
    requires OccursAt(rest, JsonFence, n)
    requires n != f + 1 && n != f + 2
    ensures f <= n <= |rest|
    ensures f == n || f + |Fence| <= n
  {
    JsonFenceIsFence(rest, n);
  }

  /** Helper: every `JsonFence` marker starts with a fence. */
  lemma JsonFenceIsFence(s: string, n: nat)
    requires OccursAt(s, JsonFence, n)
    ensures OccursAt(s, Fence, n)
  {
    JsonFenceStartsWithFence();
    OccursAtPatternPrefix(s, Fence, "json", n);
  }

  /** Helper: cutting `rest` at `n` keeps the leftmost fence `f` as the end of
      the first piece, provided the cut does not fall inside that fence. */
  lemma FenceCut(rest: string, n: nat, f: nat)
    requires f <= n <= |rest|
    requires f == |rest| || OccursAt(rest, Fence, f)
    requires forall k :: 0 <= k < f ==> !OccursAt(rest, Fence, k)
    requires f == n || f + |Fence| <= n
    ensures Split(rest[..n], Fence)[0] == rest[..f]
  {
    var seg := rest[..n];
    forall k | 0 <= k < f ensures !OccursAt(seg, Fence, k) {
      OccursInPrefix(rest, Fence, n, k);
    }
    if f == n {
      FirstPieceIs(seg, Fence, f);
    } else {
      OccursInPrefix(rest, Fence, n, f);
      FirstPieceIs(seg, Fence, f);
    }
    assert seg[..f] == rest[..f];
  }

  /** In general the `JsonFence` body is a prefix of the text after the
      first marker, holds no fence, and is followed by a `Fence` or by
      the end of the stripped reply. */
  lemma JsonFenceBounds(reply: string, t: string, i: nat)
    requires t == Strip(reply)
    requires OccursAt(t, JsonFence, i)
    requires forall k :: 0 <= k < i ==> !OccursAt(t, JsonFence, k)
    ensures var body := ExtractFenced(reply);
      && body <= t[i + |JsonFence|..]
      && (i + |JsonFence| + |body| == |t| || OccursAt(t, Fence, i + |JsonFence| + |body|))
  {
    LeftmostIsIndexOf(t, JsonFence, i);
    var m := i + |JsonFence|;
    var body := ExtractFenced(reply);
    BodyWithinRest(reply, t, i);
    OccursInSuffix(t, Fence, m, |body|);
  }

  /** Helper: `JsonFenceBounds` relative to the text after the marker. */
  lemma BodyWithinRest(reply: string, t: string, i: nat)
    requires t == Strip(reply)
    requires IndexOf(t, JsonFence) == Some(i)
    ensures var rest := t[i + |JsonFence|..]; var body := ExtractFenced(reply);
      body <= rest && (|body| == |rest| || OccursAt(rest, Fence, |body|))
  {
    var rest := t[i + |JsonFence|..];
    JsonCase(reply, t, i);
    var seg := Split(rest, JsonFence)[0];
    FirstPieceBounds(rest, JsonFence);
    FirstPieceBounds(seg, Fence);
    FenceAfterBody(rest, seg, ExtractFenced(reply));
  }

  /** Helper: a body cut at a fence out of a segment cut at a
      `JsonFence` marker is followed by a fence in the whole text. */
  lemma FenceAfterBody(rest: string, seg: string, body: string)
    requires seg <= rest && (|seg| == |rest| || OccursAt(rest, JsonFence, |seg|))
    requires body <= seg && (|body| == |seg| || OccursAt(seg, Fence, |body|))
    ensures body <= rest
    ensures |body| == |rest| || OccursAt(rest, Fence, |body|)
  {
    if |body| < |seg| {
      OccursInPrefixOf(seg, rest, Fence, |body|);
    } else if |seg| < |rest| {
      JsonFenceStartsWithFence();
      OccursAtPatternPrefix(rest, Fence, "json", |seg|);
    }
  }

  /** When the text between the first and the second `JsonFence` holds no
      `Fence`, that whole text is the body. */
  lemma JsonBodyUpToSecondMarker(reply: string, t: string, i: nat, rest: string, m: nat)
    requires t == Strip(reply)
    requires OccursAt(t, JsonFence, i)
    requires forall k :: 0 <= k < i ==> !OccursAt(t, JsonFence, k)
    requires rest == t[i + |JsonFence|..]
    requires OccursAt(rest, JsonFence, m)
    requires forall k :: 0 <= k < m ==> !OccursAt(rest, JsonFence, k)
    requires !Contains(rest[..m], Fence)
    ensures ExtractFenced(reply) == rest[..m]
  {
    LeftmostIsIndexOf(t, JsonFence, i);
    JsonCase(reply, t, i);
    LeftmostIsIndexOf(rest, JsonFence, m);
    SplitFirst(rest, JsonFence);
    SplitWithoutSep(rest[..m], Fence);
  }

  /** The body need not stop at the leftmost `Fence` after the marker:
      when a run of backticks runs into a second `JsonFence`, the split
      on `JsonFence` cuts first and the stray backticks stay in the body. */
  lemma BacktickRunBeforeSecondJsonFence(reply: string, body: string)
    requires body == "{}``"
    requires reply == JsonFence + body + JsonFence
    ensures OccursAt(reply, Fence, |JsonFence| + 2)
    ensures ExtractFenced(reply) == body
  {
    BacktickRunShape(reply, body);
    var rest := reply[|JsonFence|..];
    NoMarkerInBody(rest);
    NoFenceInBody(body);
    JsonBodyUpToSecondMarker(reply, reply, 0, rest, 4);
  }

  /** Helper: the layout of the example reply. */
  lemma BacktickRunShape(reply: string, body: string)
    requires body == "{}``"
    requires reply == JsonFence + body + JsonFence
    ensures Strip(reply) == reply
    ensures OccursAt(reply, JsonFence, 0)
    ensures OccursAt(reply, Fence, |JsonFence| + 2)
    ensures reply[|JsonFence|..] == body + JsonFence
    ensures OccursAt(reply[|JsonFence|..], JsonFence, 4)
    ensures reply[|JsonFence|..][..4] == body
  {
    assert !IsSpace(reply[0]) && !IsSpace(reply[|reply| - 1]);
    StripKeepsTrimmed(reply);
    assert reply[|JsonFence| + 2..|JsonFence| + 5] == Fence;
  }

  lemma NoMarkerInBody(rest: string)
    requires rest == "{}``" + JsonFence
    ensures forall k :: 0 <= k < 4 ==> !OccursAt(rest, JsonFence, k)
  {
    forall k | 0 <= k < 4 ensures !OccursAt(rest, JsonFence, k) {
      if k < 2 {
        assert rest[k..k + 7][0] != '`';
      } else {
        assert rest[k..k + 7][3] == '`';
      }
    }
  }

  lemma NoFenceInBody(body: string)
    requires body == "{}``"
    ensures !Contains(body, Fence)
  {
    forall k ensures !OccursAt(body, Fence, k) {
      if 0 <= k <= 1 {
        assert body[k..k + 3][0] != '`';
      }
    }
  }

  /** Helper: an occurrence in a prefix of `s` is an occurrence in `s`. */
  lemma OccursInPrefixOf(pre: string, s: string, p: string, q: int)
    requires pre <= s
    requires OccursAt(pre, p, q)
    ensures OccursAt(s, p, q)
  {
    assert pre == s[..|pre|];
    OccursInPrefix(s, p, |pre|, q);
  }

  /** Helper: an occurrence of `a + b` is an occurrence of `a`. */
  lemma OccursAtPatternPrefix(s: string, a: string, b: string, q: int)
    requires OccursAt(s, a + b, q)
    ensures OccursAt(s, a, q)
  {
    assert s[q..q + |a|] == (a + b)[..|a|];
  }

  /** Helper: the first `Fence` piece of `t[m..]` is `t[m..j]` when `j` is the
      leftmost fence at or after `m`, or the end of `t`. */
  lemma FirstPieceUpTo(tail: string, t: string, m: nat, j: nat)
    requires m <= j <= |t| && tail == t[m..]
    requires j == |t| || OccursAt(t, Fence, j)
    requires forall k :: m <= k < j ==> !OccursAt(t, Fence, k)
    ensures Split(tail, Fence)[0] == t[m..j]
  {
    forall k | 0 <= k < j - m ensures !OccursAt(tail, Fence, k) {
      OccursInSuffix(t, Fence, m, k);
    }
    if j < |t| {
      OccursInSuffix(t, Fence, m, j - m);
    }
    FirstPieceIs(tail, Fence, j - m);
    assert tail[..j - m] == t[m..j];
  }
}

=== FILE: prompt.dfy ===
/** The text-only prompt of the medical conversation agent: a fixed preamble,
    the trailing window of the conversation history, then the new user turn. */
module Prompt {
  import opened Wrappers

  /** One `ChatMessage` of the request's history. */
  datatype Turn = Turn(role: string, content: string, timestamp: string, agent: Option<string>)

  /** How many trailing turns reach the prompt (`history[-10:]`). */
  const HistoryWindow: nat := 10

  const Preamble: string :=
    "You are a professional Medical AI Assistant. Provide accurate, empathetic medical information. "
    + "Always include disclaimers that this is not a substitute for professional medical advice.\n\n"

  function Min(a: nat, b: nat): (m: nat) {
    if a <= b then a else b
  }

  /** Python's `history[-10:]`: the last ten turns, or all of them when there
      are fewer. */
  function Window(history: seq<Turn>): (recent: seq<Turn>)
    ensures |recent| == Min(HistoryWindow, |history|)
    ensures recent == history[|history| - |recent|..]
  {
    if |history| <= HistoryWindow then history else history[|history| - HistoryWindow..]
  }

  /** One history line, `f"{msg.role}: {msg.content}\n"`. */
  function Line(t: Turn): (line: string) {
    t.role + ": " + t.content + "\n"
  }

  function Lines(turns: seq<Turn>): (text: string) {
    if turns == [] then [] else Line(turns[0]) + Lines(turns[1..])
  }

  /** The closing user turn, `f"user: {message}\nassistant:"`. */
  function Closing(message: string): (closing: string) {
    "user: " + message + "\nassistant:"
  }

  /** The prompt sent for a text-only conversation. */
  function ChatPrompt(history: seq<Turn>, message: string): (prompt: string) {
    Preamble + Lines(Window(history)) + Closing(message)
  }

  lemma {:induction false} LinesAppend(turns: seq<Turn>, t: Turn)
    ensures Lines(turns + [t]) == Lines(turns) + Line(t)
  {
    if turns == [] {
      assert [] + [t] == [t];
    } else {
      assert (turns + [t])[1..] == turns[1..] + [t];
      LinesAppend(turns[1..], t);
    }
  }

  /** The history loop of the agent: starting from `prefix`, append one line
      per turn of `history[-10:]`, oldest first. */
  method AppendHistory(prefix: string, history: seq<Turn>) returns (prompt: string)
    ensures prompt == prefix + Lines(Window(history))
  {
    var recent := Window(history);
    prompt := prefix;
    var k := 0;
    while k < |recent|
      invariant k <= |recent|
      invariant prompt == prefix + Lines(recent[..k])
    {
      assert recent[..k + 1] == recent[..k] + [recent[k]];
      LinesAppend(recent[..k], recent[k]);
      prompt := prompt + Line(recent[k]);
      k := k + 1;
    }
    assert recent[..k] == recent;
  }

  /** The prompt built the way the agent builds it: the preamble, the history
      loop, then the closing turn. */
  method BuildChatPrompt(history: seq<Turn>, message: string) returns (prompt: string)
    ensures prompt == ChatPrompt(history, message)
  {
    prompt := AppendHistory(Preamble, history);
    prompt := prompt + Closing(message);
  }

  /** Turns older than the last ten never reach the prompt. */
  lemma OlderTurnsIgnored(older: seq<Turn>, recent: seq<Turn>, message: string)
    requires |recent| >= HistoryWindow
    ensures ChatPrompt(older + recent, message) == ChatPrompt(recent, message)
  {
    WindowOfLongSuffix(older, recent);
  }

  lemma WindowOfLongSuffix(older: seq<Turn>, recent: seq<Turn>)
    requires |recent| >= HistoryWindow
    ensures Window(older + recent) == Window(recent)
  {
    var h := older + recent;
    assert h[|h| - HistoryWindow..] == recent[|recent| - HistoryWindow..];
  }

  /** The prompt is the preamble, then one line for each of the last
      `min(10, |history|)` turns, oldest first, then the closing user turn. */
  lemma ChatPromptLayout(history: seq<Turn>, message: string)
    ensures var n := Min(HistoryWindow, |history|);
      ChatPrompt(history, message)
        == Preamble + Lines(history[|history| - n..]) + Closing(message)
  {
  }

  /** Only role and content of a turn reach the prompt: timestamps and agent
      labels do not. */
  lemma {:induction false} LinesIgnoreMetadata(a: seq<Turn>, b: seq<Turn>)
    requires |a| == |b|
    requires forall k :: 0 <= k < |a| ==> a[k].role == b[k].role && a[k].content == b[k].content
    ensures Lines(a) == Lines(b)
  {
    if a != [] {
      LinesIgnoreMetadata(a[1..], b[1..]);
    }
  }

  /** Each new turn slides the window by one: it enters at the end, and once
      the window is full the oldest turn in it drops out. */
  lemma WindowSlides(history: seq<Turn>, t: Turn)
    ensures |history| < HistoryWindow ==> Window(history + [t]) == history + [t]
    ensures |history| >= HistoryWindow ==> Window(history + [t]) == Window(history)[1..] + [t]
  {
    var h := history + [t];
    if |history| >= HistoryWindow {
      assert h[|h| - HistoryWindow..] == history[|history| - HistoryWindow..][1..] + [t];
    }
  }
}

=== FILE: routing.dfy ===
/** The decisions the backend takes before any model is called: which agent a
    chat request goes to (`chat`), and which sub-agent the multi-agent system
    hands a query to (`MultiAgentSystem.process`). Keyword tests are
    case-insensitive substring tests on the message. */
module Routing {
  import opened Wrappers
  import opened Text

  // ---------------------------------------------------------------------------
  // Agent types and keyword lists
  // ---------------------------------------------------------------------------

  const Auto: string := "auto"
  const MedicalChatType: string := "medical-chat"
  const PrescriptionType: string := "prescription"
  const MultiAgentType: string := "multi-agent"

  /** Words that make `auto` pick the prescription parser (with an image). */
  const PrescriptionKeywords: seq<string> := ["prescription", "medication list", "parse prescription"]

  /** Words that make `auto` pick the multi-agent system. */
  const AdvancedKeywords: seq<string> := ["research", "latest", "study", "analyze image", "x-ray", "scan"]

  /** Words that send a multi-agent query to image analysis. */
  const ImagingKeywords: seq<string> := ["analyze image", "x-ray", "scan", "mri", "ct scan", "tumor", "lesion"]

  /** Words that send a multi-agent query to web search. */
  const SearchKeywords: seq<string> := ["latest", "recent", "news", "research", "study", "2024", "2025", "current"]

  const InvalidAgentError: string := "Invalid agent type"
  const ImageRequiredError: string := "Image required for prescription parsing"

  /** Python truthiness of the optional image: present and non-empty. */
  predicate HasImage(image: Option<string>) {
    image.Some? && |image.value| > 0
  }

  /** Reference meaning of a keyword test: some listed word occurs somewhere
      in the lower-cased message. */
  ghost predicate Mentions(message: string, words: seq<string>) {
    exists k, i :: 0 <= k < |words| && OccursAt(Lower(message), words[k], i)
  }

  /** `any(word in message.lower() for word in words)`. */
  predicate KeywordHit(message: string, words: seq<string>)
    ensures KeywordHit(message, words) <==> Mentions(message, words)
  {
    ContainsAny(Lower(message), words)
  }

  // ---------------------------------------------------------------------------
  // Top-level dispatch (`chat`)
  // ---------------------------------------------------------------------------

  /** Where `chat` sends a request: one of the three agents, or an HTTP 400
      with the given error text. */
  datatype Outcome = MedicalChat | Prescription | MultiAgent | Err400(error: string)

  /** The agent type `auto` is rewritten to. */
  function AutoDetect(message: string, hasImage: bool): (agentType: string)
    ensures agentType == PrescriptionType || agentType == MultiAgentType || agentType == MedicalChatType
    ensures agentType == PrescriptionType <==> hasImage && Mentions(message, PrescriptionKeywords)
    ensures agentType == MultiAgentType <==>
              !(hasImage && Mentions(message, PrescriptionKeywords)) && Mentions(message, AdvancedKeywords)
  {
    if KeywordHit(message, PrescriptionKeywords) && hasImage then PrescriptionType
    else if KeywordHit(message, AdvancedKeywords) then MultiAgentType
    else MedicalChatType
  }

  /** Routing on a (possibly rewritten) agent type. */
  function Dispatch(agentType: Option<string>, image: Option<string>): (o: Outcome)
    ensures o == MedicalChat <==> agentType == Some(MedicalChatType)
    ensures o == Prescription <==> agentType == Some(PrescriptionType) && HasImage(image)
    ensures o == MultiAgent <==> agentType == Some(MultiAgentType)
    ensures o == Err400(ImageRequiredError) <==> agentType == Some(PrescriptionType) && !HasImage(image)
    ensures o == Err400(InvalidAgentError) <==>
              agentType !in {Some(MedicalChatType), Some(PrescriptionType), Some(MultiAgentType)}
  {
    if agentType == Some(MedicalChatType) then MedicalChat
    else if agentType == Some(PrescriptionType) then
      if !HasImage(image) then Err400(ImageRequiredError) else Prescription
    else if agentType == Some(MultiAgentType) then MultiAgent
    else Err400(InvalidAgentError)
  }

  /** `chat`: resolve `auto`, then dispatch. */
  function Resolve(agentType: Option<string>, message: string, image: Option<string>): (o: Outcome)
    ensures agentType == Some(Auto) ==> !o.Err400?
    ensures agentType != Some(Auto) ==> o == Dispatch(agentType, image)
    ensures o == Prescription ==> HasImage(image)
  {
    var effective := if agentType == Some(Auto) then Some(AutoDetect(message, HasImage(image))) else agentType;
    Dispatch(effective, image)
  }

  /** `auto` picks the prescription parser exactly when an image is present
      and a prescription keyword is mentioned; otherwise the multi-agent
      system exactly when an advanced keyword is mentioned; otherwise the
      conversation agent. */
  lemma AutoResolution(message: string, image: Option<string>)
    ensures Resolve(Some(Auto), message, image) == Prescription <==>
              HasImage(image) && Mentions(message, PrescriptionKeywords)
    ensures Resolve(Some(Auto), message, image) == MultiAgent <==>
              !(HasImage(image) && Mentions(message, PrescriptionKeywords)) && Mentions(message, AdvancedKeywords)
    ensures Resolve(Some(Auto), message, image) == MedicalChat <==>
              !(HasImage(image) && Mentions(message, PrescriptionKeywords)) && !Mentions(message, AdvancedKeywords)
  {
  }

  /** A prescription keyword with an image wins over every advanced keyword. */
  lemma PrescriptionTakesPrecedence(message: string, image: Option<string>)
    requires HasImage(image)
    requires Mentions(message, PrescriptionKeywords)
    ensures Resolve(Some(Auto), message, image) == Prescription
  {
  }

  /** Any explicit agent type is routed as given, whatever the message says. */
  lemma ExplicitTypeNotRewritten(agentType: Option<string>, m1: string, m2: string, image: Option<string>)
    requires agentType != Some(Auto)
    ensures Resolve(agentType, m1, image) == Resolve(agentType, m2, image)
  {
  }

  /** A type outside the three agents (including a JSON `null`) is rejected
      with "Invalid agent type", and no agent is invoked. */
  lemma UnknownTypeRejected(agentType: Option<string>, message: string, image: Option<string>)
    requires agentType !in {Some(Auto), Some(MedicalChatType), Some(PrescriptionType), Some(MultiAgentType)}
    ensures Resolve(agentType, message, image) == Err400(InvalidAgentError)
  {
  }

  /** An explicit prescription request without an image is rejected; `auto`
      never is. */
  lemma ImageRequiredOnlyWhenExplicit(message: string, image: Option<string>)
    ensures Resolve(Some(PrescriptionType), message, image) == Err400(ImageRequiredError) <==> !HasImage(image)
    ensures Resolve(Some(Auto), message, image) != Err400(ImageRequiredError)
  {
  }

  /** Keyword tests ignore letter case: messages that agree after
      lower-casing route alike. */
  lemma ResolveIgnoresCase(agentType: Option<string>, m1: string, m2: string, image: Option<string>)
    requires Lower(m1) == Lower(m2)
    ensures Resolve(agentType, m1, image) == Resolve(agentType, m2, image)
  {
  }

  /** In particular upper-casing or lower-casing a message changes nothing. */
  lemma ResolveUnderCaseMapping(agentType: Option<string>, message: string, image: Option<string>)
    ensures Resolve(agentType, Upper(message), image) == Resolve(agentType, message, image)
    ensures Resolve(agentType, Lower(message), image) == Resolve(agentType, message, image)
  {
    LowerForgetsCase(message);
    ResolveIgnoresCase(agentType, Upper(message), message, image);
    ResolveIgnoresCase(agentType, Lower(message), message, image);
  }

  // ---------------------------------------------------------------------------
  // Multi-agent routing (`MultiAgentSystem.process`)
  // ---------------------------------------------------------------------------

  datatype Route = ImageAnalysis | WebSearch | Rag

  /** Image analysis when an image is present or an imaging word is
      mentioned; else web search when a search word is mentioned; else RAG. */
  function MultiRoute(message: string, image: Option<string>): (r: Route)
    ensures r == ImageAnalysis <==> HasImage(image) || Mentions(message, ImagingKeywords)
    ensures r == WebSearch <==>
              !HasImage(image) && !Mentions(message, ImagingKeywords) && Mentions(message, SearchKeywords)
    ensures r == Rag <==>
              !HasImage(image) && !Mentions(message, ImagingKeywords) && !Mentions(message, SearchKeywords)
  {
    if HasImage(image) || KeywordHit(message, ImagingKeywords) then ImageAnalysis
    else if KeywordHit(message, SearchKeywords) then WebSearch
    else Rag
  }

  /** The multi-agent route ignores letter case in the same way. */
  lemma MultiRouteIgnoresCase(m1: string, m2: string, image: Option<string>)
    requires Lower(m1) == Lower(m2)
    ensures MultiRoute(m1, image) == MultiRoute(m2, image)
  {
  }

  /** Every advanced keyword of `auto` is an imaging or a search keyword of
      the multi-agent system. */
  lemma AdvancedIsImagingOrSearch(message: string)
    requires Mentions(message, AdvancedKeywords)
    ensures Mentions(message, ImagingKeywords) || Mentions(message, SearchKeywords)
  {
    var k, i :| 0 <= k < |AdvancedKeywords| && OccursAt(Lower(message), AdvancedKeywords[k], i);
    var s := Lower(message);
    if k == 0 {
      assert OccursAt(s, SearchKeywords[3], i);
    } else if k == 1 {
      assert OccursAt(s, SearchKeywords[0], i);
    } else if k == 2 {
      assert OccursAt(s, SearchKeywords[4], i);
    } else if k == 3 {
      assert OccursAt(s, ImagingKeywords[0], i);
    } else if k == 4 {
      assert OccursAt(s, ImagingKeywords[1], i);
    } else {
      assert OccursAt(s, ImagingKeywords[2], i);
    }
  }

  /** A request `auto` sends to the multi-agent system never lands in RAG: the
      words that chose the multi-agent system also choose image analysis or
      web search there. */
  lemma AutoMultiAgentNeverRag(message: string, image: Option<string>)
    requires Resolve(Some(Auto), message, image) == MultiAgent
    ensures MultiRoute(message, image) != Rag
  {
    AdvancedIsImagingOrSearch(message);
  }
}

=== FILE: text.dfy ===
/** The Python `str` operations the backend calls, stated over `seq<char>`:
    `strip` (via `isspace`), ASCII `lower`, `in` and `split`. `in` and `split`
    are computed through a leftmost search (`find`). `upper` and `join` are not
    called by the backend; they are proof helpers for case insensitivity and
    for the `split` round trip. */
module Text {
  import opened Wrappers

  // ---------------------------------------------------------------------------
  // Whitespace and strip()
  // ---------------------------------------------------------------------------

  /** The characters for which Python's `str.isspace()` holds; `str.strip()`
      with no argument removes exactly these. */
  predicate IsSpace(c: char) {
    || ('\t' <= c <= '\r')
    || ('\U{1C}' <= c <= '\U{1F}')
    || c == ' '
    || c == '\U{85}'
    || c == '\U{A0}'
    || c == '\U{1680}'
    || ('\U{2000}' <= c <= '\U{200A}')
    || c == '\U{2028}'
    || c == '\U{2029}'
    || c == '\U{202F}'
    || c == '\U{205F}'
    || c == '\U{3000}'
  }

  ghost predicate AllSpace(s: string) {
    forall i :: 0 <= i < |s| ==> IsSpace(s[i])
  }

  /** Length of the longest all-whitespace prefix. */
  function LeadingSpace(s: string): (n: nat)
    ensures n <= |s|
    ensures AllSpace(s[..n])
    ensures n < |s| ==> !IsSpace(s[n])
  {
    if |s| > 0 && IsSpace(s[0]) then 1 + LeadingSpace(s[1..]) else 0
  }

  /** Length of the longest all-whitespace suffix. */
  function TrailingSpace(s: string): (n: nat)
    ensures n <= |s|
    ensures AllSpace(s[|s| - n..])
    ensures n < |s| ==> !IsSpace(s[|s| - n - 1])
  {
    if |s| > 0 && IsSpace(s[|s| - 1]) then 1 + TrailingSpace(s[..|s| - 1]) else 0
  }

  /** Python's `s.strip()`. */
  function Strip(s: string): (r: string)
    ensures |r| <= |s|
    ensures r == [] || (!IsSpace(r[0]) && !IsSpace(r[|r| - 1]))
  {
    var rest := s[LeadingSpace(s)..];
    rest[..|rest| - TrailingSpace(rest)]
  }

  /** `LeadingSpace` stops at the first non-whitespace character. */
  lemma {:induction false} LeadingSpaceIs(s: string, n: nat)
    requires n <= |s|
    requires AllSpace(s[..n])
    requires n < |s| ==> !IsSpace(s[n])
    ensures LeadingSpace(s) == n
  {
    if n > 0 {
      assert s[..n][0] == s[0];
      assert s[1..][..n - 1] == s[..n][1..];
      LeadingSpaceIs(s[1..], n - 1);
    }
  }

  /** `TrailingSpace` stops at the last non-whitespace character. */
  lemma {:induction false} TrailingSpaceIs(s: string, n: nat)
    requires n <= |s|
    requires AllSpace(s[|s| - n..])
    requires n < |s| ==> !IsSpace(s[|s| - n - 1])
    ensures TrailingSpace(s) == n
  {
    if n > 0 {
      assert s[|s| - n..][n - 1] == s[|s| - 1];
      var t := s[..|s| - 1];
      forall j | |t| - (n - 1) <= j < |t| ensures IsSpace(t[j]) {
        assert t[j] == s[|s| - n..][j - (|s| - n)];
      }
      TrailingSpaceIs(t, n - 1);
    }
  }

  /** `strip()` is determined by its shape: any cut of `s` into whitespace,
      a middle that neither starts nor ends with whitespace, and whitespace
      is the one `Strip` makes. */
  lemma StripUnique(s: string, lo: nat, hi: nat)
    requires lo <= hi <= |s|
    requires AllSpace(s[..lo]) && AllSpace(s[hi..])
    requires lo == hi || (!IsSpace(s[lo]) && !IsSpace(s[hi - 1]))
    ensures Strip(s) == s[lo..hi]
  {
    if lo == hi {
      AllSpaceJoin(s, lo);
      StripAllSpace(s);
    } else {
      StripCut(s, lo, hi);
    }
  }

  lemma StripAllSpace(s: string)
    requires AllSpace(s)
    ensures Strip(s) == []
  {
    assert s[..|s|] == s;
    LeadingSpaceIs(s, |s|);
  }

  lemma StripCut(s: string, lo: nat, hi: nat)
    requires lo < hi <= |s|
    requires AllSpace(s[..lo]) && AllSpace(s[hi..])
    requires !IsSpace(s[lo]) && !IsSpace(s[hi - 1])
    ensures Strip(s) == s[lo..hi]
  {
    LeadingSpaceIs(s, lo);
    var rest := s[lo..];
    var n := |s| - hi;
    assert rest[|rest| - n..] == s[hi..];
    assert rest[|rest| - n - 1] == s[hi - 1];
    TrailingSpaceIs(rest, n);
    assert rest[..|rest| - n] == s[lo..hi];
  }

  lemma AllSpaceJoin(s: string, m: nat)
    requires m <= |s|
    requires AllSpace(s[..m]) && AllSpace(s[m..])
    ensures AllSpace(s)
  {
    assert s == s[..m] + s[m..];
  }

  /** A string that neither starts nor ends with whitespace is its own strip. */
  lemma StripKeepsTrimmed(s: string)
    requires s == [] || (!IsSpace(s[0]) && !IsSpace(s[|s| - 1]))
    ensures Strip(s) == s
  {
    StripUnique(s, 0, |s|);
    assert s[0..|s|] == s;
  }

  lemma StripIdempotent(s: string)
    ensures Strip(Strip(s)) == Strip(s)
  {
    var r := Strip(s);
    StripUnique(r, 0, |r|);
  }

  // ---------------------------------------------------------------------------
  // ASCII case mapping (str.lower / str.upper restricted to ASCII)
  // ---------------------------------------------------------------------------

  function LowerChar(c: char): char {
    if 'A' <= c <= 'Z' then (c as int + 32) as char else c
  }

  function UpperChar(c: char): char {
    if 'a' <= c <= 'z' then (c as int - 32) as char else c
  }

  /** `s.lower()` on ASCII letters: every character mapped, length kept. */
  function Lower(s: string): (r: string)
    ensures |r| == |s|
    ensures forall i :: 0 <= i < |s| ==> r[i] == LowerChar(s[i])
  {
    if s == [] then [] else [LowerChar(s[0])] + Lower(s[1..])
  }

  /** `s.upper()` on ASCII letters. */
  function Upper(s: string): (r: string)
    ensures |r| == |s|
    ensures forall i :: 0 <= i < |s| ==> r[i] == UpperChar(s[i])
  {
    if s == [] then [] else [UpperChar(s[0])] + Upper(s[1..])
  }

  /** Lower-casing forgets exactly the letter case of the input: upper-casing
      first changes nothing, and a second lower-casing changes nothing. */
  lemma {:induction false} LowerForgetsCase(s: string)
    ensures Lower(Upper(s)) == Lower(s)
    ensures Lower(Lower(s)) == Lower(s)
  {
    if s != [] {
      LowerForgetsCase(s[1..]);
      assert Upper(s) == [UpperChar(s[0])] + Upper(s[1..]);
      assert Upper(s)[1..] == Upper(s[1..]);
      assert Lower(s)[1..] == Lower(s[1..]);
    }
  }

  // ---------------------------------------------------------------------------
  // Substring search: `p in s` and `s.find(p)`
  // ---------------------------------------------------------------------------

  /** `p` occurs in `s` starting at index `i`. */
  predicate OccursAt(s: string, p: string, i: int) {
    0 <= i && i + |p| <= |s| && s[i..i + |p|] == p
  }

  /** The leftmost occurrence of `p` in `s` at or after index `k`
      (Python's `s.find(p, k)`, with `None` for -1). */
  function IndexFrom(s: string, p: string, k: nat): (r: Option<nat>)
    ensures r.Some? ==> k <= r.value && OccursAt(s, p, r.value)
    ensures r.Some? ==> forall j :: k <= j < r.value ==> !OccursAt(s, p, j)
    ensures r.None? ==> forall j :: k <= j ==> !OccursAt(s, p, j)
    decreases |s| - k
  {
    if k + |p| > |s| then None
    else if s[k..k + |p|] == p then Some(k)
    else IndexFrom(s, p, k + 1)
  }

  /** `s.find(p)`. */
  function IndexOf(s: string, p: string): (r: Option<nat>) {
    IndexFrom(s, p, 0)
  }

  /** Python's `p in s`. */
  predicate Contains(s: string, p: string)
    ensures Contains(s, p) <==> exists i :: OccursAt(s, p, i)
  {
    IndexOf(s, p).Some?
  }

  /** Python's `any(w in s for w in words)`. */
  predicate ContainsAny(s: string, words: seq<string>)
    ensures ContainsAny(s, words) <==>
              exists k, i :: 0 <= k < |words| && OccursAt(s, words[k], i)
  {
    if |words| == 0 then false
    else if Contains(s, words[0]) then true
    else
      var b := ContainsAny(s, words[1..]);
      assert b ==> exists k, i :: 0 <= k < |words| && OccursAt(s, words[k], i) by {
        if b {
          var k, i :| 0 <= k < |words| - 1 && OccursAt(s, words[1..][k], i);
          assert OccursAt(s, words[k + 1], i);
        }
      }
      b
  }

  /** The leftmost occurrence is the only index that is an occurrence with no
      occurrence before it. */
  lemma LeftmostIsIndexOf(s: string, p: string, i: nat)
    requires OccursAt(s, p, i)
    requires forall j :: 0 <= j < i ==> !OccursAt(s, p, j)
    ensures IndexOf(s, p) == Some(i)
  {
  }

  /** Occurrences in a suffix are occurrences in the whole, shifted. */
  lemma OccursInSuffix(s: string, p: string, m: nat, j: int)
    requires m <= |s|
    ensures OccursAt(s[m..], p, j) <==> (0 <= j && OccursAt(s, p, m + j))
  {
    if 0 <= j && j + |p| <= |s| - m {
      assert s[m..][j..j + |p|] == s[m + j..m + j + |p|];
    }
  }

  /** Occurrences in a prefix are occurrences in the whole. */
  lemma OccursInPrefix(s: string, p: string, n: nat, j: int)
    requires n <= |s|
    ensures OccursAt(s[..n], p, j) <==> (OccursAt(s, p, j) && j + |p| <= n)
  {
    if 0 <= j && j + |p| <= n {
      assert s[..n][j..j + |p|] == s[j..j + |p|];
    }
  }

  /** Nothing before the leftmost occurrence contains the pattern. */
  lemma PrefixBeforeFirst(s: string, p: string, i: nat)
    requires |p| > 0
    requires IndexOf(s, p) == Some(i)
    ensures !Contains(s[..i], p)
  {
    forall j ensures !OccursAt(s[..i], p, j) {
      OccursInPrefix(s, p, i, j);
    }
  }

  /** A string containing `a + b` contains `a`. */
  lemma ContainsPrefixOfPattern(s: string, a: string, b: string)
    requires Contains(s, a + b)
    ensures Contains(s, a)
  {
    var i :| OccursAt(s, a + b, i);
    assert s[i..i + |a|] == (a + b)[..|a|];
    assert OccursAt(s, a, i);
  }

  /** A one-character pattern occurs exactly where that character stands. */
  lemma OccursAtChar(s: string, c: char, i: int)
    ensures OccursAt(s, [c], i) <==> (0 <= i < |s| && s[i] == c)
  {
    if 0 <= i < |s| {
      assert s[i..i + 1] == [s[i]];
    }
  }

  // ---------------------------------------------------------------------------
  // split() and join()
  // ---------------------------------------------------------------------------

  /** Python's `s.split(sep)` for a non-empty separator (an empty one raises
      `ValueError`): the pieces between successive leftmost, non-overlapping
      occurrences of `sep`. */
  function Split(s: string, sep: string): (parts: seq<string>)
    requires |sep| > 0
    ensures |parts| >= 1
    ensures Contains(s, sep) <==> |parts| >= 2
    ensures forall k :: 0 <= k < |parts| ==> !Contains(parts[k], sep)
    ensures forall k :: 0 <= k < |parts| ==> |parts[k]| <= |s|
    decreases |s|
  {
    match IndexOf(s, sep)
    case None => [s]
    case Some(i) =>
      PrefixBeforeFirst(s, sep, i);
      [s[..i]] + Split(s[i + |sep|..], sep)
  }

  /** Python's `sep.join(parts)` for a non-empty list. */
  function Join(parts: seq<string>, sep: string): (s: string)
    requires |parts| >= 1
  {
    if |parts| == 1 then parts[0] else parts[0] + sep + Join(parts[1..], sep)
  }

  /** `sep.join(s.split(sep)) == s`: splitting loses nothing. */
  lemma {:induction false} JoinSplit(s: string, sep: string)
    requires |sep| > 0
    ensures Join(Split(s, sep), sep) == s
    decreases |s|
  {
    var found := IndexOf(s, sep);
    if found.Some? {
      var i := found.value;
      var tail := s[i + |sep|..];
      JoinSplit(tail, sep);
      SplitUnfold(s, sep, i);
      JoinCons(s[..i], Split(tail, sep), sep);
      SplitAround(s, sep, i);
    }
  }

  lemma SplitAround(s: string, sep: string, i: nat)
    requires OccursAt(s, sep, i)
    ensures s == s[..i] + sep + s[i + |sep|..]
  {
    assert s[i..i + |sep|] == sep;
  }

  lemma JoinCons(head: string, rest: seq<string>, sep: string)
    requires |rest| >= 1
    ensures Join([head] + rest, sep) == head + sep + Join(rest, sep)
  {
    assert ([head] + rest)[1..] == rest;
  }

  /** One step of `Split`: the text before the leftmost separator, then the
      pieces of what follows it. */
  lemma SplitUnfold(s: string, sep: string, i: nat)
    requires |sep| > 0
    requires IndexOf(s, sep) == Some(i)
    ensures Split(s, sep) == [s[..i]] + Split(s[i + |sep|..], sep)
  {
  }

  /** The first piece of a split is the text before the leftmost separator,
      or the whole string when there is none. */
  lemma SplitFirst(s: string, sep: string)
    requires |sep| > 0
    ensures IndexOf(s, sep).None? ==> Split(s, sep)[0] == s
    ensures IndexOf(s, sep).Some? ==> Split(s, sep)[0] == s[..IndexOf(s, sep).value]
  {
  }

  /** The first piece is a prefix of the string, followed by the separator
      or by nothing. */
  lemma FirstPieceBounds(s: string, sep: string)
    requires |sep| > 0
    ensures Split(s, sep)[0] <= s
    ensures |Split(s, sep)[0]| == |s| || OccursAt(s, sep, |Split(s, sep)[0]|)
  {
    SplitFirst(s, sep);
  }

  /** The first piece ends at the leftmost separator `j`, or at the end when
      `j == |s|` and there is none. */
  lemma FirstPieceIs(s: string, sep: string, j: nat)
    requires |sep| > 0
    requires j <= |s|
    requires j == |s| || OccursAt(s, sep, j)
    requires forall k :: 0 <= k < j ==> !OccursAt(s, sep, k)
    ensures Split(s, sep)[0] == s[..j]
  {
    SplitFirst(s, sep);
    if j < |s| {
      LeftmostIsIndexOf(s, sep, j);
    } else {
      assert s[..j] == s;
    }
  }

  /** The second piece is the first piece of what follows the leftmost
      separator. */
  lemma SplitSecond(s: string, sep: string, i: nat)
    requires |sep| > 0
    requires IndexOf(s, sep) == Some(i)
    ensures Split(s, sep)[1] == Split(s[i + |sep|..], sep)[0]
  {
  }

  /** Splitting a string that does not contain the separator gives it back. */
  lemma SplitWithoutSep(s: string, sep: string)
    requires |sep| > 0
    requires !Contains(s, sep)
    ensures Split(s, sep) == [s]
  {
  }
}

=== FILE: wrappers.dfy ===
/** The optional-value datatype used throughout the model: Python's `None`
    versus a present value. */
module Wrappers {

  datatype Option<+T> = None | Some(value: T)
}
